=== FILE: README.md ===
# td-rs simulation core in Dafny

This project models the per-step simulation of td-rs, a small tower-defense
game built on the hecs entity-component store. Units walk a two-point path.
Towers shoot the nearest unit in range. Each iteration of the main loop,
unless the game is paused, runs these systems in order:

1. motion;
2. culling of dead units;
3. culling of units that reached the end of the path, whose count is added
   to the arrival tally;
4. every tower firing.

At exit the towers' summed kill score is reported.

The store is a `map<EntityId, Entity>`. An `Entity` holds one optional field
per component. The store's iteration order is an explicit parameter `order`:
it lists every handle exactly once, and handles not in the store are
skipped. No contract assumes a particular order. The outcome of the firing
pass does depend on it, because a later tower sees the damage done by
earlier ones; so does which of several equally near entities is chosen.
Where the source picks "a minimum" (`min_by_key`), the contracts hold for
any minimum.

Random draws are parameters, and their ranges are preconditions:
- unit offset, speed and health;
- tower position, damage and range.

The handles of freshly spawned entities are parameters too. They must be
distinct and not yet in the store.

Modules:
- `Components` holds the component records and the role predicates.
- `Store` holds the world, selection in iteration order, batch insertion and
  despawning.
- `Geometry` holds `direction`, the Manhattan distance and small arithmetic
  helpers.
- `Selection` is `min_by_key` over a sequence.
- `Motion`, `Lifecycle` and `Combat` are the systems.
- `Spawns` covers spawning and the click helpers.
- `Simulation` holds the main loop's state and step.

Behaviour of the code worth noting:
- Firing: a tower whose nearest eligible entity already has health at or
  below zero (an entity dead but not yet culled) does nothing that turn. It
  keeps its previous Target and does not pick another entity. The Target is
  set to a position only when a hit is dealt.
- The loop's pause flag starts from `config.paused`, but `src/config.rs`
  declares no such field. Here the pause flag is part of the simulation
  state and an argument of `Simulation.Init`.
- `Waypoint` is used but not defined in `src/components.rs`. It is modelled
  as a record holding one index.

## Model

| member | source | states |
|---|---|---|
| Geometry.Direction | src/systems.rs:5-7 | the clamp to [-1, 1] is the sign of the movement, and direction times movement is its absolute value |
| Geometry.ManhattanDistance | src/systems.rs:9-11 | the distance is non-negative, zero exactly for equal positions, and bounds each axis difference |
| Geometry.ManhattanSymmetric | src/systems.rs:9-11 | tower-to-unit and unit-to-tower distances agree, so the range filter and the selection key measure the same thing |
| Selection.MinByKey | src/systems.rs:84-92 | None exactly when nothing in the sequence is eligible; otherwise an eligible member of the sequence whose key is minimal among the eligible ones |
| Store.Select | src/systems.rs:36-42 | the collected handles are exactly the store's entities matching the query, without repeats |
| Store.SelectCount | src/systems.rs:44 | the number of collected handles is the number of matching entities, whatever the iteration order |
| Store.Despawn | src/systems.rs:45-47 | exactly the listed handles leave the store and every other entity is kept unchanged |
| Store.Insert | src/spawns.rs:23 | a batch spawn adds one entry per new handle, each holding its own component bundle, and keeps every existing entry |
| Motion.StepAxis | src/systems.rs:22-27 | with non-negative speed an axis moves toward the goal by min(gap, speed) without overshooting; a negative speed backs away |
| Motion.StepAxisUnique | src/systems.rs:22-27 | the no-overshoot description determines the stepped coordinate uniquely |
| Motion.AdvanceUnit | src/systems.rs:21-30 | a unit past the last waypoint stays put; otherwise both axes step toward the waypoint, and the index advances exactly when the waypoint is reached |
| Motion.MoveAll | src/systems.rs:20-32 | the loop steps each listed entity once and leaves unlisted ones unchanged |
| Motion.IntegrateMotion | src/systems.rs:15-33 | every entity with Position, Waypoint and Speed takes one step, other entities are unchanged, and only Position and Waypoint are written |
| Motion.IndexMonotone | src/systems.rs:28-30 | the waypoint index never decreases over any number of steps |
| Motion.ReachesWaypoint | src/systems.rs:21-30 | with speed s a unit reaches its current waypoint, and advances the index, within k steps whenever k * s covers the larger axis gap |
| Lifecycle.RemoveMatching | src/systems.rs:35-65 | collect-then-despawn removes exactly the matching entities, keeps the rest unchanged, and returns their number |
| Lifecycle.RemoveDead | src/systems.rs:51-65 | exactly the entities with health at or below zero are despawned, and the returned count equals the number that left the store |
| Lifecycle.RemoveDeadBoundary | src/systems.rs:54 | health 0 counts as dead and health 1 does not |
| Lifecycle.RemoveArrived | src/systems.rs:35-49 | exactly the Health-carrying entities standing on the goal are despawned, towers are never removed by this system, and the count matches |
| Lifecycle.UnitsLeft | src/systems.rs:75-77 | the count equals the number of entities carrying Health |
| Lifecycle.AsUsize | src/systems.rs:72 | an i32 value becomes the usize below 2^64 congruent to it modulo 2^64: non-negative values are unchanged, negative ones wrap to at least 2^64 - 2^31 |
| Lifecycle.TotalScore | src/systems.rs:67-73 | the report is the usize below 2^64 congruent to the i32 total of the Score components modulo 2^64, so a non-negative total is reported as is |
| Lifecycle.ScoreSumNonNegative | src/systems.rs:67-73 | when no Score component is negative, neither is their sum |
| Lifecycle.ReportedScoreExact | src/systems.rs:67-73 | when no Score component is negative and the i32 sum does not overflow, the report is exactly the sum of the towers' kills |
| Lifecycle.ScoreOrderIndependent | src/systems.rs:67-73 | the score total is the same for every iteration order of the store |
| Lifecycle.ScoreSumBump | src/systems.rs:67-73 | changing one entity's score by d changes the total by d |
| Combat.ChooseTarget | src/systems.rs:84-92 | None exactly when no other Health-and-Position entity lies within the tower's range (inclusive); otherwise a closest such entity |
| Combat.Engage | src/systems.rs:94-114 | a living target loses exactly the tower's damage; the tower gains one kill exactly when health reaches zero or below, and records the target's position; a target at or below zero blocks the shot and nothing changes |
| Combat.ClearTarget | src/systems.rs:115-117 | a tower with nothing in range clears its Target and keeps its score |
| Combat.FireTower | src/systems.rs:81-118 | one tower's turn clears Target when nothing is eligible, and otherwise engages a closest eligible entity |
| Combat.FireAll | src/systems.rs:80-120 | successive towers never remove or move an entity, never touch health at or below zero, and never lower a score; each listed tower ends with the Target its own turn set (cleared when nothing was eligible at the start of the pass, otherwise a closest eligible entity's position or its previous Target), and no other Target changes |
| Combat.FireAtClosest | src/systems.rs:80-120 | every tower in the store takes its turn: it ends with a cleared Target when nothing is eligible, otherwise with a closest eligible entity's position or its previous Target; non-towers keep their Target, and the frame invariant holds |
| Combat.TurnTargets | src/systems.rs:94-118 | one tower's turn sets its own Target as described and no other entity's Target |
| Combat.EligibleStable | src/systems.rs:84-90 | firing keeps every entity's eligibility and distance for every tower, so later towers choose among the same candidates |
| Combat.TookTurnTransfer | src/systems.rs:80-120 | a turn described against the store a later tower saw is also described against the store at the start of the pass |
| Combat.OutOfRangeUntouched | src/systems.rs:86-89 | an entity beyond a tower's range is never affected by that tower |
| Combat.InRangeEngaged | src/systems.rs:86-89 | an entity at exactly the tower's range makes the tower choose some target no farther away |
| Combat.ClearTargetCredits | src/systems.rs:115-117 | clearing a target fells nobody and leaves the score total unchanged |
| Combat.EngageCredits | src/systems.rs:99-110 | one hit raises the score total by exactly the number of entities it fells (zero or one) |
| Combat.FireTowerCredits | src/systems.rs:81-118 | one tower's turn raises the score total by exactly the number of entities it fells |
| Combat.FallenCompose | src/systems.rs:99-106 | entities felled across consecutive turns add up, and no entity is felled twice |
| Combat.KillsCredited | src/systems.rs:80-120 | over a firing pass, the score total grows by exactly the number of entities taken from positive health to zero or below |
| Combat.SoleTowerPass | src/systems.rs:80-120 | with one tower and one entity in its range, the pass is exactly one hit of that tower on that entity |
| Spawns.NewUnit | src/spawns.rs:10-21 | a spawned unit carries Health (value = max), Position, Speed and Waypoint index 0, with the drawn values inside their ranges |
| Spawns.NewTower | src/spawns.rs:44-53 | a built tower carries Position, Damage, Range, a zero Score and an empty Target |
| Spawns.BatchSpawnUnits | src/spawns.rs:7-24 | adds one fresh unit per draw around the spawn point and leaves the existing entities as they were |
| Spawns.NewTowers | src/spawns.rs:29-38 | one fresh tower per draw, at the drawn position |
| Spawns.BatchSpawnTowers | src/spawns.rs:26-40 | adds one fresh tower per draw at its drawn position and leaves the existing entities as they were |
| Spawns.SpawnTower | src/spawns.rs:42-54 | adds exactly one fresh tower at the clicked position |
| Spawns.RemoveTower | src/spawns.rs:56-70 | despawns one nearest Damage-carrying entity at Manhattan distance below 10 from the click (strictly), or nothing when none is that close |
| Spawns.ClosestTower | src/spawns.rs:72-84 | reports the position and range of one nearest tower at Manhattan distance below 10 from the click (strictly), and None exactly when there is none |
| Simulation.PathShape | src/main.rs:107-112 | the path has two distinct points; units start at the first and leave at the last |
| Simulation.Init | src/main.rs:122-123 | the initial store holds the fresh units around the start and the fresh towers, and both counters are zero |
| Simulation.ArrivalsAfterCulling | src/main.rs:185-187 | after motion and the culling of the dead, the entities on the end of the path are exactly the units alive before culling that motion put there |
| Simulation.Cull | src/main.rs:185-188 | the survivors are the entities that were neither dead nor arriving, each as motion left it, and the count is that of the arriving units |
| Simulation.InitScoresNonNegative | src/main.rs:122-123 | the initial store holds no negative score, since every tower is built with Score 0 |
| Simulation.StepKeepsScoresNonNegative | src/main.rs:184-191 | a step never makes a score negative |
| Simulation.Step | src/main.rs:184-191 | paused: nothing changes; otherwise the step count grows by one, the arrival tally by the number of arriving live units, the survivors stand where motion put them, and every surviving tower then takes its firing turn under the firing invariant |
| Simulation.Dispatch | src/main.rs:153-182 | a command keeps every existing entry as it was; only a removal command drops entries, every new entry is a fresh unit (spawn) or a fresh tower at the click (build), and only the pause toggle flips the pause flag |
| Simulation.DispatchKeepsScoresNonNegative | src/main.rs:153-182 | no command makes a score negative |
| Simulation.Run | src/main.rs:134-191 | over a run of frames the step counter grows by at most one per frame and the arrival tally never decreases |
| Simulation.RunKeepsScoresNonNegative | src/main.rs:134-191 | by induction over the loop's iterations, no command or step ever makes a score negative |
| Simulation.ExitScoreExact | src/main.rs:251 | after any run of the loop from a state with no negative score, such as the initial one, the exit report is exactly the sum of the towers' kills, provided the i32 sum does not overflow |

## Left out

- Rendering, the camera, the on-screen text, and the reading of keyboard
  and mouse input (`src/actions.rs`) are not modelled. The commands the loop
  dispatches are the `Simulation.Command` values.
- `print_world_state` and `closest_entity` (the view command) are not part
  of this model. Their commands are `Idle`: they are taken to leave the
  store unchanged. So are the debug toggle and the mode change. Quit
  breaks out of the loop before any step, so it is not a command here: a
  run (`Simulation.Run`) is the frames before it.
  `Spawns.ClosestTower` models the read-only tower lookup of
  `src/spawns.rs`.
- Configuration loading (`src/config.rs`) is left out. The unit and tower
  counts are the lengths of the draw sequences passed to `Simulation.Init`.
- The random number generator is left out. Its draws are parameters, and
  their half-open ranges are preconditions.
- Allocation of entity handles by hecs is left out. New handles are
  parameters.
- The order in which hecs iterates archetypes is left out. It is the `order`
  parameter.
- The conversion of the clicked `Vec2` to integer coordinates (`as i32`) is
  left out. Click positions are integer `Position`s.
- The `Vec2`/`f32` result of `closest_tower` is left out. `Spawns.ClosestTower`
  returns the integer position and the range.
- Debug logging and the exit message are left out. The score printed at exit
  (`src/main.rs:251`) is `Lifecycle.TotalScore` applied to the final store.
- Lifecycle.TotalScore: 32-bit overflow of the summation is not modelled.
  Integers are unbounded. The total is required to lie in i32's range, so
  the `as usize` conversion is modelled exactly, with `usize` taken to be
  64 bits wide (on a 32-bit target such as wasm32 a negative total would
  wrap modulo 2^32 instead). No score goes negative
  during a run (`Simulation.InitScoresNonNegative`,
  `Simulation.RunKeepsScoresNonNegative`), so in play the wrap is never
  reached (`Simulation.ExitScoreExact`).
- Combat.Engage: i32 wrap-around of health and score is not modelled, for
  the same reason.
- Motion.AdvanceUnit: i32 wrap-around of coordinates is not modelled, for
  the same reason.
- Selection.MinByKey: the contract states that the result is a minimum. It
  does not state that the first minimum in iteration order wins, which is
  what `min_by_key` does. The iteration order is unspecified anyway.
- Simulation.Run: the frame timing is not modelled. A run is any finite
  sequence of frames; the quit command ends it and runs no step.

=== FILE: combat.dfy ===
/** The combat system ("fire at closest"): towers, one after another, shoot
    the nearest Health-carrying entity within their Manhattan range. */
module Combat {
  import opened Components
  import opened Geometry
  import opened Store
  import opened Selection
  import opened Lifecycle

  /** Entity `c` may be shot by tower `t`: it carries Health and Position, is
      not the tower itself, and lies within the tower's range (inclusive). */
  predicate Eligible(w: World, t: EntityId, c: EntityId) {
    && t in w && c in w && c != t
    && w[c].health.Some? && w[c].position.Some?
    && w[t].position.Some? && w[t].range.Some?
    && ManhattanDistance(w[c].position.value, w[t].position.value) <= w[t].range.value.reach
  }

  /** The selection key: the distance from the tower to the candidate. */
  function DistanceTo(w: World, t: EntityId, c: EntityId): int {
    if t in w && c in w && w[t].position.Some? && w[c].position.Some?
    then ManhattanDistance(w[t].position.value, w[c].position.value)
    else 0
  }

  /** `c` is eligible and no eligible entity is strictly closer to `t`. */
  predicate IsClosest(w: World, t: EntityId, c: EntityId) {
    Eligible(w, t, c) && forall d :: d in w && Eligible(w, t, d) ==> DistanceTo(w, t, c) <= DistanceTo(w, t, d)
  }

  /** The target query: filter by range, then take a minimum by distance. */
  function ChooseTarget(w: World, t: EntityId, order: seq<EntityId>): (r: Option<EntityId>)
    requires Covers(order, w)
    ensures r.None? <==> forall c :: !Eligible(w, t, c)
    ensures r.Some? ==> IsClosest(w, t, r.value)
  {
    MinByKey(order, (c: EntityId) => Eligible(w, t, c), (c: EntityId) => DistanceTo(w, t, c))
  }

  /** What firing never changes: no entity is removed, gains or loses a
      component, or moves; only Health, Score and Target are written; health
      at or below zero stays as it is; and scores never go down. */
  predicate FireInvariant(w: World, r: World) {
    && r.Keys == w.Keys
    && (forall id :: id in w ==>
          && SameComponents(w[id], r[id])
          && r[id].position == w[id].position && r[id].speed == w[id].speed
          && r[id].waypoint == w[id].waypoint && r[id].damage == w[id].damage
          && r[id].range == w[id].range)
    && (forall id :: id in w && !Alive(w[id]) ==> r[id].health == w[id].health)
    && (forall id :: id in w && w[id].score.Some? ==> r[id].score.value.kills >= w[id].score.value.kills)
  }

  /** Consecutive turns compose: the invariant is transitive. */
  lemma FireInvariantTrans(w0: World, w1: World, w2: World)
    requires FireInvariant(w0, w1) && FireInvariant(w1, w2)
    ensures FireInvariant(w0, w2)
  {
    forall id | id in w0
      ensures SameComponents(w0[id], w2[id])
      ensures w2[id].position == w0[id].position && w2[id].speed == w0[id].speed
      ensures w2[id].waypoint == w0[id].waypoint && w2[id].damage == w0[id].damage
      ensures w2[id].range == w0[id].range
      ensures !Alive(w0[id]) ==> w2[id].health == w0[id].health
      ensures w0[id].score.Some? ==> w2[id].score.value.kills >= w0[id].score.value.kills
    {
      assert id in w1;
      assert SameComponents(w0[id], w1[id]) && SameComponents(w1[id], w2[id]);
    }
  }

  /** One hit of tower `t` on its chosen target `c`. */
  function Engage(w: World, t: EntityId, c: EntityId): (r: World)
    requires t in w && IsTower(w[t]) && Eligible(w, t, c)
    ensures r.Keys == w.Keys
    ensures forall id :: id in w && id != t && id != c ==> r[id] == w[id]
    // A target already at or below zero health is not shot again: nothing
    // changes, and the tower keeps whatever Target it had.
    ensures !Alive(w[c]) ==> r == w
    // A living target loses exactly `damage`; the tower now points at it and
    // is credited a kill exactly when the hit takes the health to zero or below.
    ensures Alive(w[c]) ==> r[c].health.Some? && r[t].score.Some?
    ensures Alive(w[c]) ==>
      var h := r[c].health.value;
      var before := w[t].score.value.kills;
      var after := r[t].score.value.kills;
      && r[c] == w[c].(health := Some(h))
      && h.value == w[c].health.value.value - w[t].damage.value.amount
      && h.max == w[c].health.value.max
      && r[t] == w[t].(score := r[t].score, target := r[t].target)
      && r[t].target == Some(Target(w[c].position))
      && (after == before + 1 <==> h.value <= 0)
      && (after == before <==> h.value > 0)
    ensures FireInvariant(w, r)
  {
    var health := w[c].health.value;
    if health.value > 0 then
      var hit := Health(health.value - w[t].damage.value.amount, health.max);
      var kills := w[t].score.value.kills + if hit.value <= 0 then 1 else 0;
      var tower := w[t].(score := Some(Score(kills)), target := Some(Target(Some(w[c].position.value))));
      w[c := w[c].(health := Some(hit))][t := tower]
    else
      w
  }

  /** A tower with nothing eligible in range stops engaging. */
  function ClearTarget(w: World, t: EntityId): (r: World)
    requires t in w && IsTower(w[t])
    ensures r.Keys == w.Keys
    ensures forall id :: id in w && id != t ==> r[id] == w[id]
    ensures r[t].target == Some(Target(None)) && r[t].score == w[t].score
    ensures FireInvariant(w, r)
  {
    w[t := w[t].(target := Some(Target(None)))]
  }

  /** One tower's turn: shoot the closest eligible entity, or clear Target. */
  function FireTower(w: World, t: EntityId, order: seq<EntityId>): (r: World)
    requires Covers(order, w) && t in w && IsTower(w[t])
    ensures (forall c :: !Eligible(w, t, c)) ==> r == ClearTarget(w, t)
    ensures (exists c :: Eligible(w, t, c)) ==> exists c :: IsClosest(w, t, c) && r == Engage(w, t, c)
    ensures FireInvariant(w, r)
  {
    match ChooseTarget(w, t, order)
    case None => ClearTarget(w, t)
    case Some(c) => Engage(w, t, c)
  }

  /** What tower `t`'s turn in `w` may leave as its Target in `r`: cleared when
      nothing is eligible; otherwise the position of a closest eligible entity,
      or the Target it already had when that entity's shot was blocked. */
  predicate TookTurn(w: World, t: EntityId, r: World) {
    && t in w && t in r
    && ((forall c :: c in w ==> !Eligible(w, t, c)) ==> r[t].target == Some(Target(None)))
    && ((exists c :: c in w && Eligible(w, t, c)) ==>
          || r[t].target == w[t].target
          || exists c :: c in w && IsClosest(w, t, c) && r[t].target == Some(Target(w[c].position)))
  }

  /** A tower's turn sets its own Target as described and no other Target. */
  lemma TurnTargets(w: World, t: EntityId, order: seq<EntityId>)
    requires Covers(order, w) && t in w && IsTower(w[t])
    ensures TookTurn(w, t, FireTower(w, t, order))
    ensures forall id :: id in w && id != t ==> FireTower(w, t, order)[id].target == w[id].target
  {
    match ChooseTarget(w, t, order)
    case None =>
      assert FireTower(w, t, order) == ClearTarget(w, t);
    case Some(c) =>
      var r := Engage(w, t, c);
      assert FireTower(w, t, order) == r;
      assert IsClosest(w, t, c);
      if Alive(w[c]) {
        assert r[t].target == Some(Target(w[c].position));
        assert r[c].target == w[c].target;
      }
  }

  /** Firing keeps every entity's eligibility and distance for every tower. */
  lemma EligibleStable(w: World, r: World, t: EntityId, c: EntityId)
    requires FireInvariant(w, r)
    ensures Eligible(w, t, c) <==> Eligible(r, t, c)
    ensures DistanceTo(w, t, c) == DistanceTo(r, t, c)
  {
  }

  /** A turn described against the store a later tower saw is also described
      against the store at the start of the pass. */
  lemma TookTurnTransfer(w: World, w1: World, t: EntityId, r: World)
    requires FireInvariant(w, w1) && t in w && w1[t].target == w[t].target
    requires TookTurn(w1, t, r)
    ensures TookTurn(w, t, r)
  {
    forall c
      ensures Eligible(w, t, c) <==> Eligible(w1, t, c)
      ensures DistanceTo(w, t, c) == DistanceTo(w1, t, c)
    {
      EligibleStable(w, w1, t, c);
    }
    forall c
      ensures IsClosest(w, t, c) <==> IsClosest(w1, t, c)
    {
    }
    if exists c :: c in w && Eligible(w, t, c) {
      if r[t].target != w[t].target {
        var c :| c in w1 && IsClosest(w1, t, c) && r[t].target == Some(Target(w1[c].position));
        assert IsClosest(w, t, c) && w1[c].position == w[c].position;
      }
    }
  }

  /** The inductive step of a firing pass: the first tower's turn followed by
      the rest of the pass. */
  lemma PassStep(w: World, towers: seq<EntityId>, order: seq<EntityId>, w1: World, r: World)
    requires Covers(order, w) && towers != []
    requires w1 == if towers[0] in w && IsTower(w[towers[0]]) then FireTower(w, towers[0], order) else w
    requires FireInvariant(w, w1) && FireInvariant(w1, r)
    requires forall u :: u in w1 && !(u in towers[1..] && IsTower(w1[u])) ==> r[u].target == w1[u].target
    requires NoDup(towers[1..]) ==> forall u :: u in towers[1..] && u in w1 && IsTower(w1[u]) ==> TookTurn(w1, u, r)
    ensures forall u :: u in w && !(u in towers && IsTower(w[u])) ==> r[u].target == w[u].target
    ensures NoDup(towers) ==> forall u :: u in towers && u in w && IsTower(w[u]) ==> TookTurn(w, u, r)
  {
    var t := towers[0];
    assert forall u :: u in towers <==> u == t || u in towers[1..];
    if t in w && IsTower(w[t]) {
      TurnTargets(w, t, order);
    }
    assert forall u :: u in w ==> (IsTower(w1[u]) <==> IsTower(w[u]));
    if NoDup(towers) {
      assert t !in towers[1..];
      assert NoDup(towers[1..]);
      forall u | u in towers && u in w && IsTower(w[u])
        ensures TookTurn(w, u, r)
      {
        if u == t {
          assert r[t].target == w1[t].target;
        } else {
          TookTurnTransfer(w, w1, u, r);
        }
      }
    }
  }

  /** The towers take their turns in sequence; a later tower sees the damage
      done by the earlier ones. Handles that are not towers are skipped. */
  function FireAll(w: World, towers: seq<EntityId>, order: seq<EntityId>): (r: World)
    requires Covers(order, w)
    ensures FireInvariant(w, r)
    // Only the listed towers' turns write Targets, and each listed tower ends
    // the pass with the Target its own turn set.
    ensures forall u :: u in w && !(u in towers && IsTower(w[u])) ==> r[u].target == w[u].target
    ensures NoDup(towers) ==> forall u :: u in towers && u in w && IsTower(w[u]) ==> TookTurn(w, u, r)
    decreases |towers|
  {
    if towers == [] then w
    else
      var t := towers[0];
      var w1 := if t in w && IsTower(w[t]) then FireTower(w, t, order) else w;
      var r := FireAll(w1, towers[1..], order);
      FireInvariantTrans(w, w1, r);
      PassStep(w, towers, order, w1, r);
      r
  }

  /** system_fire_at_closest: every tower, in iteration order, takes its turn. */
  function FireAtClosest(w: World, order: seq<EntityId>): (r: World)
    requires Covers(order, w)
    ensures FireInvariant(w, r)
    ensures forall t :: t in w && IsTower(w[t]) ==> TookTurn(w, t, r)
    ensures forall u :: u in w && !IsTower(w[u]) ==> r[u].target == w[u].target
  {
    FireAll(w, Select(w, order, IsTower), order)
  }

  /** A tower never damages an entity out of its range. */
  lemma OutOfRangeUntouched(w: World, t: EntityId, order: seq<EntityId>, u: EntityId)
    requires Covers(order, w) && t in w && IsTower(w[t])
    requires u in w && u != t && w[u].position.Some?
    requires ManhattanDistance(w[u].position.value, w[t].position.value) > w[t].range.value.reach
    ensures FireTower(w, t, order)[u] == w[u]
  {
  }

  /** The range bound is inclusive: an entity at distance exactly `reach`
      makes the tower engage something at least as close. */
  lemma InRangeEngaged(w: World, t: EntityId, order: seq<EntityId>, u: EntityId)
    requires Covers(order, w) && t in w && IsTower(w[t])
    requires u in w && u != t && w[u].health.Some? && w[u].position.Some?
    requires ManhattanDistance(w[u].position.value, w[t].position.value) == w[t].range.value.reach
    ensures ChooseTarget(w, t, order).Some?
    ensures DistanceTo(w, t, ChooseTarget(w, t, order).value) <= w[t].range.value.reach
  {
    assert Eligible(w, t, u);
    ManhattanSymmetric(w[u].position.value, w[t].position.value);
  }

  /** The entities a firing pass took from above zero to zero or below. */
  function Fallen(w: World, r: World): set<EntityId> {
    set id | id in w && id in r && Alive(w[id]) && IsDead(r[id])
  }

  /** Clearing the target fells nobody and credits nothing. */
  lemma ClearTargetCredits(w: World, t: EntityId, order: seq<EntityId>)
    requires Covers(order, w) && t in w && IsTower(w[t])
    ensures ScoreSum(ClearTarget(w, t), order) == ScoreSum(w, order)
    ensures Fallen(w, ClearTarget(w, t)) == {}
  {
    ScoreSumBump(w, ClearTarget(w, t), order, t, 0);
  }

  /** A hit credits one kill exactly when it fells its target. */
  lemma EngageCredits(w: World, t: EntityId, c: EntityId, order: seq<EntityId>)
    requires Covers(order, w) && t in w && IsTower(w[t]) && Eligible(w, t, c)
    ensures ScoreSum(Engage(w, t, c), order) == ScoreSum(w, order) + |Fallen(w, Engage(w, t, c))|
  {
    var r := Engage(w, t, c);
    if Alive(w[c]) {
      if IsDead(r[c]) {
        assert Fallen(w, r) == {c};
        ScoreSumBump(w, r, order, t, 1);
      } else {
        assert Fallen(w, r) == {};
        ScoreSumBump(w, r, order, t, 0);
      }
    } else {
      assert Fallen(w, r) == {};
    }
  }

  /** One tower's turn credits exactly as many kills as entities it fells. */
  lemma FireTowerCredits(w: World, t: EntityId, order: seq<EntityId>)
    requires Covers(order, w) && t in w && IsTower(w[t])
    ensures ScoreSum(FireTower(w, t, order), order) == ScoreSum(w, order) + |Fallen(w, FireTower(w, t, order))|
  {
    match ChooseTarget(w, t, order)
    case None => ClearTargetCredits(w, t, order);
    case Some(c) => EngageCredits(w, t, c, order);
  }

  /** Felling is additive over consecutive turns: health at or below zero is
      never touched again, so no entity falls twice. */
  lemma FallenCompose(w0: World, w1: World, w2: World)
    requires FireInvariant(w0, w1) && FireInvariant(w1, w2)
    ensures Fallen(w0, w2) == Fallen(w0, w1) + Fallen(w1, w2)
    ensures Fallen(w0, w1) !! Fallen(w1, w2)
  {
  }

  /** Every kill is credited exactly once: over a whole firing pass the total
      score grows by exactly the number of entities felled. */
  lemma {:induction false} KillsCredited(w: World, towers: seq<EntityId>, order: seq<EntityId>)
    requires Covers(order, w)
    ensures ScoreSum(FireAll(w, towers, order), order) == ScoreSum(w, order) + |Fallen(w, FireAll(w, towers, order))|
    decreases |towers|
  {
    if towers == [] {
      assert Fallen(w, w) == {};
    } else {
      var t := towers[0];
      var w1 := if t in w && IsTower(w[t]) then FireTower(w, t, order) else w;
      var w2 := FireAll(w1, towers[1..], order);
      if t in w && IsTower(w[t]) {
        FireTowerCredits(w, t, order);
      } else {
        assert Fallen(w, w) == {};
      }
      KillsCredited(w1, towers[1..], order);
      FallenCompose(w, w1, w2);
    }
  }

  /** With a single tower and a single entity in its range, a firing pass
      is exactly one hit of that tower on that entity. */
  lemma SoleTowerPass(w: World, order: seq<EntityId>, t: EntityId, c: EntityId)
    requires Covers(order, w) && t in w && IsTower(w[t])
    requires forall id :: id in w && id != t ==> !IsTower(w[id])
    requires Eligible(w, t, c) && forall d :: Eligible(w, t, d) ==> d == c
    ensures FireAtClosest(w, order) == Engage(w, t, c)
  {
    var towers := Select(w, order, IsTower);
    DistinctCount(towers);
    assert Elems(towers) == {t};
    assert towers == [t];
    var r := FireTower(w, t, order);
    assert towers[1..] == [];
    assert FireAll(r, [], order) == r;
    assert FireAll(w, towers, order) == r;
    assert ChooseTarget(w, t, order) == Some(c);
  }
}

=== FILE: components.dfy ===
/** The component records an entity may carry. An entity is a unit or a tower
    only by the set of components it carries; there is no class hierarchy. */
module Components {

  datatype Option<+T> = None | Some(value: T)

  /** Opaque entity handle handed out by the entity store. */
  type EntityId = nat

  /** Integer world coordinates; equality is componentwise on x and y. */
  datatype Position = Position(x: int, y: int)

  /** Signed health: damage larger than what is left drives `value` below zero. */
  datatype Health = Health(value: int, max: int)

  /** Distance advanced per simulation step. */
  datatype Speed = Speed(perStep: int)

  /** Raw damage dealt by one hit. */
  datatype Damage = Damage(amount: int)

  /** A target is in range when its distance is at most `reach` (inclusive). */
  datatype Range = Range(reach: int)

  /** Number of kills credited to a tower. */
  datatype Score = Score(kills: int)

  /** What a tower is engaging; `None` means it is not engaging anything. */
  datatype Target = Target(position: Option<Position>)

  /** Index into the shared path of waypoints. */
  datatype Waypoint = Waypoint(index: nat)

  /** An entity: each component is independently present or absent. */
  datatype Entity = Entity(
    position: Option<Position>,
    health: Option<Health>,
    speed: Option<Speed>,
    waypoint: Option<Waypoint>,
    damage: Option<Damage>,
    range: Option<Range>,
    score: Option<Score>,
    target: Option<Target>)

  /** The components a unit is spawned with. */
  predicate IsUnit(e: Entity) {
    e.health.Some? && e.position.Some? && e.speed.Some? && e.waypoint.Some?
  }

  /** The components a tower is spawned with (the fire system's tower query). */
  predicate IsTower(e: Entity) {
    e.position.Some? && e.damage.Some? && e.range.Some? && e.score.Some? && e.target.Some?
  }

  /** The motion system's query: Position, Waypoint and Speed. */
  predicate IsMobile(e: Entity) {
    e.position.Some? && e.waypoint.Some? && e.speed.Some?
  }

  /** Carries Health with a value above zero. */
  predicate Alive(e: Entity) {
    e.health.Some? && e.health.value.value > 0
  }

  /** Carries Health with a value at or below zero: due for removal. */
  predicate IsDead(e: Entity) {
    e.health.Some? && e.health.value.value <= 0
  }

  predicate HasHealth(e: Entity) {
    e.health.Some?
  }

  /** Two entities carry the same set of components. */
  predicate SameComponents(a: Entity, b: Entity) {
    && a.position.Some? == b.position.Some?
    && a.health.Some? == b.health.Some?
    && a.speed.Some? == b.speed.Some?
    && a.waypoint.Some? == b.waypoint.Some?
    && a.damage.Some? == b.damage.Some?
    && a.range.Some? == b.range.Some?
    && a.score.Some? == b.score.Some?
    && a.target.Some? == b.target.Some?
  }
}

=== FILE: geometry.dfy ===
/** Integer geometry shared by the systems: the axis step direction and the
    Manhattan distance used both to filter by range and to pick the closest. */
module Geometry {
  import opened Components

  function Abs(v: int): (r: nat)
    ensures r == v || r == -v
  {
    if v < 0 then -v else v
  }

  function Min(a: int, b: int): (r: int)
    ensures r <= a && r <= b && (r == a || r == b)
  {
    if a <= b then a else b
  }

  function Max(a: int, b: int): (r: int)
    ensures r >= a && r >= b && (r == a || r == b)
  {
    if a >= b then a else b
  }

  /** `movement` clamped to [-1, 1]: the sign of the movement. */
  function Direction(movement: int): (r: int)
    ensures -1 <= r <= 1
    ensures r == 1 <==> movement > 0
    ensures r == -1 <==> movement < 0
    ensures r == 0 <==> movement == 0
    ensures r * movement == Abs(movement)
  {
    if movement < -1 then -1 else if movement > 1 then 1 else movement
  }

  function ManhattanDistance(p: Position, q: Position): (r: nat)
    ensures r == 0 <==> p == q
    ensures r >= Abs(p.x - q.x) && r >= Abs(p.y - q.y)
  {
    Abs(p.x - q.x) + Abs(p.y - q.y)
  }

  /** The distance does not depend on the order of its arguments, so the
      range filter and the closest-target key agree. */
  lemma ManhattanSymmetric(p: Position, q: Position)
    ensures ManhattanDistance(p, q) == ManhattanDistance(q, p)
  {
  }
}

=== FILE: lifecycle.dfy ===
/** The lifecycle systems: culling dead and arrived units, and the read-only
    tallies of units left and of the towers' total score. */
module Lifecycle {
  import opened Components
  import opened Store

  /** What a removal system leaves behind and how many entities it despawned. */
  datatype Removal = Removal(world: World, removed: nat)

  /** Collect the live entities matching `p` in iteration order, then despawn
      them all and report how many there were. */
  function RemoveMatching(w: World, order: seq<EntityId>, p: Entity -> bool): (res: Removal)
    requires Covers(order, w)
    ensures res.world.Keys == w.Keys - Matching(w, p)
    ensures forall id :: id in res.world ==> res.world[id] == w[id]
    ensures res.removed == |Matching(w, p)|
  {
    var doomed := Select(w, order, p);
    SelectCount(w, order, p);
    assert Elems(doomed) == Matching(w, p);
    Removal(Despawn(w, doomed), |doomed|)
  }

  /** The entities system_remove_dead despawns: Health at or below zero. */
  function DeadIds(w: World): (r: set<EntityId>)
    ensures forall id :: id in r <==> id in w && w[id].health.Some? && w[id].health.value.value <= 0
  {
    Matching(w, IsDead)
  }

  /** system_remove_dead: exactly the entities whose health is at most zero go,
      the rest are untouched, and the count of the removed ones is returned. */
  function RemoveDead(w: World, order: seq<EntityId>): (res: Removal)
    requires Covers(order, w)
    ensures forall id :: id in res.world <==> id in w && !(w[id].health.Some? && w[id].health.value.value <= 0)
    ensures forall id :: id in res.world ==> res.world[id] == w[id]
    ensures res.removed == |w.Keys - res.world.Keys| == |DeadIds(w)|
  {
    var res := RemoveMatching(w, order, IsDead);
    assert w.Keys - res.world.Keys == DeadIds(w);
    res
  }

  /** Health 0 is removed, health 1 is kept. */
  lemma RemoveDeadBoundary(w: World, order: seq<EntityId>, a: EntityId, b: EntityId)
    requires Covers(order, w)
    requires a in w && w[a].health.Some? && w[a].health.value.value == 0
    requires b in w && w[b].health.Some? && w[b].health.value.value == 1
    ensures a !in RemoveDead(w, order).world
    ensures b in RemoveDead(w, order).world
  {
  }

  /** The arrival query: a Health-carrying entity standing exactly on `goal`. */
  function OnGoal(goal: Position): Entity -> bool {
    (e: Entity) => e.health.Some? && e.position == Some(goal)
  }

  /** The entities system_remove_arrived despawns. */
  function ArrivedIds(w: World, goal: Position): (r: set<EntityId>)
    ensures forall id :: id in r <==> id in w && w[id].health.Some? && w[id].position == Some(goal)
  {
    Matching(w, OnGoal(goal))
  }

  /** system_remove_arrived: exactly the Health-carrying entities on `goal` go;
      an entity without Health (a tower) stays even when standing on `goal`. */
  function RemoveArrived(w: World, order: seq<EntityId>, goal: Position): (res: Removal)
    requires Covers(order, w)
    ensures forall id :: id in res.world <==> id in w && !(w[id].health.Some? && w[id].position == Some(goal))
    ensures forall id :: id in w && w[id].health.None? ==> id in res.world
    ensures forall id :: id in res.world ==> res.world[id] == w[id]
    ensures res.removed == |w.Keys - res.world.Keys| == |ArrivedIds(w, goal)|
  {
    var res := RemoveMatching(w, order, OnGoal(goal));
    assert w.Keys - res.world.Keys == ArrivedIds(w, goal);
    res
  }

  /** system_units_left: the number of entities carrying Health. */
  function UnitsLeft(w: World, order: seq<EntityId>): (n: nat)
    requires Covers(order, w)
    ensures n == |set id | id in w && w[id].health.Some?|
  {
    SelectCount(w, order, HasHealth);
    assert Matching(w, HasHealth) == set id | id in w && w[id].health.Some?;
    |Select(w, order, HasHealth)|
  }

  /** The score an entity contributes to the tally. */
  function ScoreOf(w: World, id: EntityId): int {
    if id in w && w[id].score.Some? then w[id].score.value.kills else 0
  }

  /** The i32 sum of the Score components along `ids`. */
  function ScoreSum(w: World, ids: seq<EntityId>): int
    decreases |ids|
  {
    if ids == [] then 0 else ScoreOf(w, ids[0]) + ScoreSum(w, ids[1..])
  }

  /** `sum as usize`: a negative i32 sum is sign-extended onto 64 bits. */
  function AsUsize(v: int): (r: nat)
    requires -0x8000_0000 <= v < 0x8000_0000
    ensures v >= 0 ==> r == v
    ensures v < 0 ==> r >= 0x1_0000_0000_0000_0000 - 0x8000_0000
    // The result is the usize congruent to v modulo 2^64.
    ensures r < 0x1_0000_0000_0000_0000 && r % 0x1_0000_0000_0000_0000 == v % 0x1_0000_0000_0000_0000
  {
    if v >= 0 then v else v + 0x1_0000_0000_0000_0000
  }

  /** system_score: the towers' summed Score as usize. */
  function TotalScore(w: World, order: seq<EntityId>): (r: nat)
    requires Covers(order, w)
    requires -0x8000_0000 <= ScoreSum(w, order) < 0x8000_0000
    ensures ScoreSum(w, order) >= 0 ==> r == ScoreSum(w, order)
    ensures r < 0x1_0000_0000_0000_0000
    ensures r % 0x1_0000_0000_0000_0000 == ScoreSum(w, order) % 0x1_0000_0000_0000_0000
  {
    AsUsize(ScoreSum(w, order))
  }

  /** Every Score component in the store is at least zero. */
  predicate ScoresNonNegative(w: World) {
    forall id :: id in w && w[id].score.Some? ==> w[id].score.value.kills >= 0
  }

  /** Summing non-negative scores gives a non-negative total. */
  lemma {:induction false} ScoreSumNonNegative(w: World, ids: seq<EntityId>)
    requires ScoresNonNegative(w)
    ensures ScoreSum(w, ids) >= 0
    decreases |ids|
  {
    if ids != [] {
      ScoreSumNonNegative(w, ids[1..]);
    }
  }

  /** With no negative score in the store (and an i32 sum that does not
      overflow), the reported total is the exact sum: the conversion to usize
      never wraps. */
  lemma ReportedScoreExact(w: World, order: seq<EntityId>)
    requires Covers(order, w) && ScoresNonNegative(w)
    requires ScoreSum(w, order) < 0x8000_0000
    ensures 0 <= ScoreSum(w, order)
    ensures TotalScore(w, order) == ScoreSum(w, order)
  {
    ScoreSumNonNegative(w, order);
  }

  /** Ids absent from the store contribute nothing. */
  lemma {:induction false} ScoreSumOfAbsent(w: World, ids: seq<EntityId>)
    requires forall id :: id in ids ==> id !in w
    ensures ScoreSum(w, ids) == 0
    decreases |ids|
  {
    if ids != [] {
      assert ids[0] in ids;
      ScoreSumOfAbsent(w, ids[1..]);
    }
  }

  /** The sum is unchanged by a change to an entry the list does not mention. */
  lemma {:induction false} ScoreSumFrame(w: World, w': World, ids: seq<EntityId>)
    requires forall id :: id in ids ==> ScoreOf(w, id) == ScoreOf(w', id)
    ensures ScoreSum(w, ids) == ScoreSum(w', ids)
    decreases |ids|
  {
    if ids != [] {
      assert ids[0] in ids;
      ScoreSumFrame(w, w', ids[1..]);
    }
  }

  /** Taking one element out of the list takes its score out of the sum. */
  lemma {:induction false} ScoreSumRemoveAt(w: World, ids: seq<EntityId>, k: nat)
    requires k < |ids|
    ensures ScoreSum(w, ids) == ScoreOf(w, ids[k]) + ScoreSum(w, ids[..k] + ids[k + 1..])
    decreases |ids|
  {
    if k > 0 {
      ScoreSumRemoveAt(w, ids[1..], k - 1);
      assert ids[1..][..k - 1] + ids[1..][k..] == (ids[..k] + ids[k + 1..])[1..];
    } else {
      assert ids[..k] + ids[k + 1..] == ids[1..];
    }
  }

  /** Changing one store entry's score by `d` changes the sum by `d`. */
  lemma ScoreSumBump(w: World, r: World, order: seq<EntityId>, t: EntityId, d: int)
    requires Covers(order, w) && t in w
    requires forall id :: id != t ==> ScoreOf(r, id) == ScoreOf(w, id)
    requires ScoreOf(r, t) == ScoreOf(w, t) + d
    ensures ScoreSum(r, order) == ScoreSum(w, order) + d
  {
    var k :| 0 <= k < |order| && order[k] == t;
    var rest := order[..k] + order[k + 1..];
    RemoveAtElems(order, k);
    ScoreSumRemoveAt(w, order, k);
    ScoreSumRemoveAt(r, order, k);
    ScoreSumFrame(w, r, rest);
  }

  /** system_score does not depend on the iteration order of the store. */
  lemma {:induction false} ScoreOrderIndependent(w: World, a: seq<EntityId>, b: seq<EntityId>)
    requires Covers(a, w) && Covers(b, w)
    ensures ScoreSum(w, a) == ScoreSum(w, b)
    decreases |a|
  {
    if a == [] {
      ScoreSumOfAbsent(w, b);
    } else {
      var x := a[0];
      var rest := a[1..];
      assert x !in rest;
      if x in b {
        var k :| 0 <= k < |b| && b[k] == x;
        var b' := b[..k] + b[k + 1..];
        ScoreSumRemoveAt(w, b, k);
        var w' := map id | id in w && id != x :: w[id];
        RemoveAtElems(b, k);
        ScoreOrderIndependent(w', rest, b');
        ScoreSumFrame(w, w', rest);
        ScoreSumFrame(w, w', b');
      } else {
        assert x !in w;
        ScoreOrderIndependent(w, rest, b);
      }
    }
  }
}

=== FILE: motion.dfy ===
/** The motion system: every entity carrying Position, Waypoint and Speed takes
    one step toward the waypoint its index names. */
module Motion {
  import opened Components
  import opened Geometry
  import opened Store

  /** One axis of a step: move by at most `speed` toward `goal`, each axis
      clamped on its own (so a diagonal step can be longer than `speed`). */
  function StepAxis(from: int, goal: int, speed: int): (r: int)
    // With a non-negative speed the coordinate stays between where it was and
    // the goal, and the remaining gap shrinks by `speed` without overshooting.
    ensures speed >= 0 ==> Min(from, goal) <= r <= Max(from, goal)
    ensures speed >= 0 ==> Abs(goal - r) == Max(Abs(goal - from) - speed, 0)
    ensures speed >= 0 ==> Abs(r - from) == Min(Abs(goal - from), speed)
    // A negative speed backs away from the goal by |speed| (unless already on it).
    ensures speed < 0 && from != goal ==> Abs(goal - r) == Abs(goal - from) - speed
    ensures from == goal ==> r == from
  {
    var d := goal - from;
    from + Direction(d) * Min(Abs(d), speed)
  }

  /** The no-overshoot description pins the step down: any coordinate on the
      segment with the right remaining gap is the one StepAxis picks. */
  lemma StepAxisUnique(from: int, goal: int, speed: int, c: int)
    requires speed >= 0
    requires Min(from, goal) <= c <= Max(from, goal)
    requires Abs(goal - c) == Max(Abs(goal - from) - speed, 0)
    ensures c == StepAxis(from, goal, speed)
  {
  }

  /** Everything but Position and Waypoint is left as it was. */
  predicate OnlyMotionChanged(e: Entity, r: Entity) {
    && r.health == e.health && r.speed == e.speed && r.damage == e.damage
    && r.range == e.range && r.score == e.score && r.target == e.target
  }

  /** One step of one mobile entity along `waypoints`. */
  function AdvanceUnit(e: Entity, waypoints: seq<Position>): (r: Entity)
    requires IsMobile(e)
    ensures IsMobile(r) && OnlyMotionChanged(e, r)
    ensures e.waypoint.value.index >= |waypoints| ==> r == e
    ensures e.waypoint.value.index < |waypoints| ==>
      var goal := waypoints[e.waypoint.value.index];
      var p := e.position.value;
      var q := r.position.value;
      var s := e.speed.value.perStep;
      && q.x == StepAxis(p.x, goal.x, s)
      && q.y == StepAxis(p.y, goal.y, s)
      && (q == goal ==> r.waypoint.value.index == e.waypoint.value.index + 1)
      && (q != goal ==> r.waypoint == e.waypoint)
  {
    var i := e.waypoint.value.index;
    if i < |waypoints| then
      var goal := waypoints[i];
      var p := e.position.value;
      var s := e.speed.value.perStep;
      var dx := Direction(goal.x - p.x) * Min(Abs(goal.x - p.x), s);
      var dy := Direction(goal.y - p.y) * Min(Abs(goal.y - p.y), s);
      var q := Position(p.x + dx, p.y + dy);
      e.(position := Some(q), waypoint := if q == goal then Some(Waypoint(i + 1)) else e.waypoint)
    else
      e
  }

  /** The entity as the motion system leaves it. */
  function Moved(e: Entity, waypoints: seq<Position>): Entity {
    if IsMobile(e) then AdvanceUnit(e, waypoints) else e
  }

  /** The motion loop over the store in iteration order `ids`. */
  function MoveAll(w: World, waypoints: seq<Position>, ids: seq<EntityId>): (r: World)
    requires NoDup(ids)
    ensures r.Keys == w.Keys
    ensures forall id :: id in w && id in ids ==> r[id] == Moved(w[id], waypoints)
    ensures forall id :: id in w && id !in ids ==> r[id] == w[id]
    decreases |ids|
  {
    if ids == [] then w
    else
      var id := ids[0];
      var w' := if id in w then w[id := Moved(w[id], waypoints)] else w;
      assert forall x :: x in ids <==> x == id || x in ids[1..];
      MoveAll(w', waypoints, ids[1..])
  }

  /** system_integrate_motion: whatever the iteration order, every mobile
      entity takes exactly one step and nothing else changes. */
  function IntegrateMotion(w: World, waypoints: seq<Position>, order: seq<EntityId>): (r: World)
    requires Covers(order, w)
    ensures r.Keys == w.Keys
    ensures forall id :: id in w && !IsMobile(w[id]) ==> r[id] == w[id]
    ensures forall id :: id in w && IsMobile(w[id]) ==> r[id] == AdvanceUnit(w[id], waypoints)
    ensures forall id :: id in w ==> SameComponents(w[id], r[id]) && OnlyMotionChanged(w[id], r[id])
  {
    MoveAll(w, waypoints, order)
  }

  /** Stepping a unit k times. */
  function AdvanceTimes(e: Entity, waypoints: seq<Position>, k: nat): (r: Entity)
    requires IsMobile(e)
    ensures IsMobile(r)
    decreases k
  {
    if k == 0 then e else AdvanceTimes(AdvanceUnit(e, waypoints), waypoints, k - 1)
  }

  /** The waypoint index never goes back. */
  lemma {:induction false} IndexMonotone(e: Entity, waypoints: seq<Position>, k: nat)
    requires IsMobile(e)
    ensures AdvanceTimes(e, waypoints, k).waypoint.value.index >= e.waypoint.value.index
    decreases k
  {
    if k > 0 {
      IndexMonotone(AdvanceUnit(e, waypoints), waypoints, k - 1);
    }
  }

  /** The larger of the two axis gaps to the current waypoint. */
  function Gap(e: Entity, goal: Position): nat
    requires e.position.Some?
  {
    Max(Abs(goal.x - e.position.value.x), Abs(goal.y - e.position.value.y))
  }

  /** A unit with speed s reaches its current waypoint, and so moves on to the
      next index, within any k >= 1 steps with k * s covering the larger gap. */
  lemma {:induction false} ReachesWaypoint(e: Entity, waypoints: seq<Position>, k: nat)
    requires IsMobile(e) && e.waypoint.value.index < |waypoints|
    requires e.speed.value.perStep >= 0 && k >= 1
    requires k * e.speed.value.perStep >= Gap(e, waypoints[e.waypoint.value.index])
    ensures AdvanceTimes(e, waypoints, k).waypoint.value.index > e.waypoint.value.index
    decreases k
  {
    var e1 := AdvanceUnit(e, waypoints);
    var i := e.waypoint.value.index;
    var goal := waypoints[i];
    var s := e.speed.value.perStep;
    if e1.waypoint.value.index == i + 1 {
      IndexMonotone(e1, waypoints, k - 1);
    } else {
      assert e1.position.value != goal;
      assert Gap(e1, goal) == Max(Gap(e, goal) - s, 0);
      if k == 1 {
        assert false;
      } else {
        assert (k - 1) * s >= Gap(e1, goal);
        ReachesWaypoint(e1, waypoints, k - 1);
      }
    }
  }
}

=== FILE: selection.dfy ===
/** Selecting the element with the smallest key among the eligible ones, as an
    iterator's filter followed by min_by_key does. */
module Selection {
  import opened Components

  /** Scans `ids` in order, keeping the first element of least `key` among
      those satisfying `eligible`. */
  function MinByKey(ids: seq<EntityId>, eligible: EntityId -> bool, key: EntityId -> int): (r: Option<EntityId>)
    ensures r.None? <==> forall id :: id in ids ==> !eligible(id)
    ensures r.Some? ==> r.value in ids && eligible(r.value)
    ensures r.Some? ==> forall id :: id in ids && eligible(id) ==> key(r.value) <= key(id)
    decreases |ids|
  {
    if ids == [] then None
    else
      var last := ids[|ids| - 1];
      var front := ids[..|ids| - 1];
      assert forall id :: id in ids <==> id in front || id == last;
      var best := MinByKey(front, eligible, key);
      if !eligible(last) then best
      else if best.None? || key(last) < key(best.value) then Some(last)
      else best
  }
}

=== FILE: simulation.dfy ===
/** The game state and one iteration of the main loop's simulation part:
    motion, then culling of dead units, then culling of arrived units, then
    towers firing, unless the game is paused. */
module Simulation {
  import opened Components
  import opened Store
  import opened Motion
  import opened Lifecycle
  import opened Combat
  import opened Spawns

  /** The shared path: units spawn around the first point and leave at the last. */
  const Waypoints: seq<Position> := [Position(-1000, 1000), Position(0, 0)]

  function Start(): Position {
    Waypoints[0]
  }

  /** The terminal position passed to the arrival check. */
  function End(): Position {
    Waypoints[|Waypoints| - 1]
  }

  /** The path has two distinct points; the arrival check uses the last one. */
  lemma PathShape()
    ensures |Waypoints| == 2
    ensures Start() == Position(-1000, 1000) && End() == Position(0, 0)
    ensures Start() != End()
  {
  }

  /** The simulation state the main loop owns. */
  datatype Sim = Sim(world: World, step: nat, arrived: nat, paused: bool)

  /** The initial batch: units around the start of the path, towers near the
      origin, and both counters at zero. */
  function Init(unitRolls: seq<UnitRoll>, unitIds: seq<EntityId>,
                towerRolls: seq<TowerRoll>, towerIds: seq<EntityId>, paused: bool): (s: Sim)
    requires |unitIds| == |unitRolls| && NoDup(unitIds)
    requires |towerIds| == |towerRolls| && NoDup(towerIds)
    requires forall id :: id in towerIds ==> id !in unitIds
    requires forall i :: 0 <= i < |unitRolls| ==> ValidUnitRoll(unitRolls[i])
    requires forall i :: 0 <= i < |towerRolls| ==> ValidTowerRoll(towerRolls[i])
    ensures s.step == 0 && s.arrived == 0 && s.paused == paused
    ensures |s.world| == |unitRolls| + |towerRolls|
    ensures forall i :: 0 <= i < |unitIds| ==> unitIds[i] in s.world && FreshUnit(s.world[unitIds[i]], Start())
    ensures forall i :: 0 <= i < |towerIds| ==> towerIds[i] in s.world && FreshTower(s.world[towerIds[i]], Position(towerRolls[i].x, towerRolls[i].y))
  {
    var units := BatchSpawnUnits(map[], Start(), unitRolls, unitIds);
    Sim(BatchSpawnTowers(units, towerRolls, towerIds), 0, 0, paused)
  }

  /** The units that a step counts as arrived: alive when the culling of the
      dead runs, and standing on the end of the path after moving. */
  function ArrivingIds(w: World): set<EntityId> {
    set id | id in w && Alive(w[id]) && Moved(w[id], Waypoints).position == Some(End())
  }

  /** One entity's arrival, given what motion and the culling of the dead do
      to each entry. */
  lemma ArrivalOf(w: World, moved: World, culled: World, id: EntityId)
    requires moved.Keys == w.Keys
    requires forall x :: x in w ==> moved[x] == Moved(w[x], Waypoints) && moved[x].health == w[x].health
    requires forall x :: x in culled <==> x in moved && !IsDead(moved[x])
    requires forall x :: x in culled ==> culled[x] == moved[x]
    ensures id in ArrivedIds(culled, End()) <==> id in ArrivingIds(w)
  {
    if id in w {
      assert moved[id] == Moved(w[id], Waypoints);
    }
  }

  /** After motion and the culling of the dead, the entities on the end of
      the path that carry Health are exactly the arriving ones. */
  lemma ArrivalsAfterCulling(w: World, order: seq<EntityId>)
    requires Covers(order, w)
    ensures ArrivedIds(RemoveDead(IntegrateMotion(w, Waypoints, order), order).world, End()) == ArrivingIds(w)
  {
    var moved := IntegrateMotion(w, Waypoints, order);
    var culled := RemoveDead(moved, order).world;
    MotionMovesAll(w, order);
    var arrived := ArrivedIds(culled, End());
    forall id
      ensures id in arrived <==> id in ArrivingIds(w)
    {
      ArrivalOf(w, moved, culled, id);
    }
  }

  /** Motion leaves every entry as `Moved` describes it, Health included. */
  lemma MotionMovesAll(w: World, order: seq<EntityId>)
    requires Covers(order, w)
    ensures var moved := IntegrateMotion(w, Waypoints, order);
      && moved.Keys == w.Keys
      && forall x :: x in w ==> moved[x] == Moved(w[x], Waypoints) && moved[x].health == w[x].health
  {
  }

  /** What the three culling stages leave, entity by entity. */
  lemma CullSurvivors(w: World, order: seq<EntityId>)
    requires Covers(order, w)
    ensures var res := RemoveArrived(RemoveDead(IntegrateMotion(w, Waypoints, order), order).world, order, End());
      && (forall id :: id in res.world <==> id in w && !IsDead(w[id]) && id !in ArrivingIds(w))
      && (forall id :: id in res.world ==> res.world[id] == Moved(w[id], Waypoints))
  {
    var moved := IntegrateMotion(w, Waypoints, order);
    var culled := RemoveDead(moved, order).world;
    var res := RemoveArrived(culled, order, End());
    ArrivalsAfterCulling(w, order);
    forall id
      ensures id in res.world <==> id in w && !IsDead(w[id]) && id !in ArrivingIds(w)
      ensures id in res.world ==> res.world[id] == Moved(w[id], Waypoints)
    {
      if id in w {
        assert moved[id] == Moved(w[id], Waypoints);
        assert moved[id].health == w[id].health;
        assert id in culled <==> !IsDead(w[id]);
        assert id in ArrivingIds(w) <==> id in ArrivedIds(culled, End());
      } else {
        assert id !in culled;
      }
    }
  }

  /** The survivors of the two culling systems, with the number of arrivals. */
  function Cull(w: World, order: seq<EntityId>): (res: Removal)
    requires Covers(order, w)
    ensures res.removed == |ArrivingIds(w)|
    ensures forall id :: id in res.world <==> id in w && !IsDead(w[id]) && id !in ArrivingIds(w)
    ensures forall id :: id in res.world ==> res.world[id] == Moved(w[id], Waypoints)
  {
    var moved := IntegrateMotion(w, Waypoints, order);
    var culled := RemoveDead(moved, order);
    ArrivalsAfterCulling(w, order);
    CullSurvivors(w, order);
    RemoveArrived(culled.world, order, End())
  }

  /** One loop iteration's simulation update. */
  function Step(s: Sim, order: seq<EntityId>): (r: Sim)
    requires Covers(order, s.world)
    ensures s.paused ==> r == s
    ensures !s.paused ==> r.step == s.step + 1 && r.paused == s.paused
    // Exactly the units alive and on the end after moving are counted as
    // arrived; one already dead is culled first and never counted.
    ensures !s.paused ==> r.arrived == s.arrived + |ArrivingIds(s.world)|
    ensures !s.paused ==> forall id :: id in r.world <==>
      id in s.world && !IsDead(s.world[id]) && id !in ArrivingIds(s.world)
    // Survivors are where motion put them; firing does not move anything.
    ensures !s.paused ==> forall id :: id in r.world ==>
      r.world[id].position == Moved(s.world[id], Waypoints).position
    // The towers then fire on the culled store: every surviving tower takes
    // its turn, and firing keeps its frame invariant.
    ensures !s.paused ==> FireInvariant(Cull(s.world, order).world, r.world)
    ensures !s.paused ==> forall t :: t in Cull(s.world, order).world && IsTower(Cull(s.world, order).world[t]) ==>
      TookTurn(Cull(s.world, order).world, t, r.world)
  {
    if s.paused then s
    else
      var home := Cull(s.world, order);
      Sim(FireAtClosest(home.world, order), s.step + 1, s.arrived + home.removed, s.paused)
  }

  /** The initial store holds no negative score: every tower starts at zero. */
  lemma InitScoresNonNegative(unitRolls: seq<UnitRoll>, unitIds: seq<EntityId>,
                              towerRolls: seq<TowerRoll>, towerIds: seq<EntityId>, paused: bool)
    requires |unitIds| == |unitRolls| && NoDup(unitIds)
    requires |towerIds| == |towerRolls| && NoDup(towerIds)
    requires forall id :: id in towerIds ==> id !in unitIds
    requires forall i :: 0 <= i < |unitRolls| ==> ValidUnitRoll(unitRolls[i])
    requires forall i :: 0 <= i < |towerRolls| ==> ValidTowerRoll(towerRolls[i])
    ensures ScoresNonNegative(Init(unitRolls, unitIds, towerRolls, towerIds, paused).world)
  {
    var w := Init(unitRolls, unitIds, towerRolls, towerIds, paused).world;
    forall id | id in w && w[id].score.Some?
      ensures w[id].score.value.kills >= 0
    {
      if id in towerIds {
        var i :| 0 <= i < |towerIds| && towerIds[i] == id;
        assert FreshTower(w[towerIds[i]], Position(towerRolls[i].x, towerRolls[i].y));
      }
    }
  }

  /** A step never makes a score negative, so the score reported at exit is
      the exact sum of the towers' kills. */
  lemma StepKeepsScoresNonNegative(s: Sim, order: seq<EntityId>)
    requires Covers(order, s.world) && ScoresNonNegative(s.world)
    ensures ScoresNonNegative(Step(s, order).world)
  {
    if !s.paused {
      var home := Cull(s.world, order);
      forall id | id in home.world && home.world[id].score.Some?
        ensures home.world[id].score.value.kills >= 0
      {
        assert home.world[id] == Moved(s.world[id], Waypoints);
      }
    }
  }

  /** The player's commands the loop dispatches before the step. Commands that
      leave both the store and the pause flag alone (the debug toggle, the
      state dump, view, the mode change, no input) are `Idle`. Quit ends the
      loop, so a run is the frames before it. */
  datatype Command =
    | Idle
    | TogglePause
    | SpawnWave(rolls: seq<UnitRoll>, ids: seq<EntityId>)
    | Build(at: Position, stats: TowerStats, id: EntityId)
    | Demolish(click: Position)

  /** The draws are in range and the new handles are fresh for the store. */
  predicate Admissible(s: Sim, c: Command) {
    match c
    case SpawnWave(rolls, ids) =>
      && |ids| == |rolls| && NoDup(ids)
      && (forall id :: id in ids ==> id !in s.world)
      && (forall i :: 0 <= i < |rolls| ==> ValidUnitRoll(rolls[i]))
    case Build(_, stats, id) => id !in s.world && ValidTowerStats(stats)
    case _ => true
  }

  /** The main loop's command dispatch. */
  function Dispatch(s: Sim, c: Command, order: seq<EntityId>): (r: Sim)
    requires Covers(order, s.world) && Admissible(s, c)
    ensures r.step == s.step && r.arrived == s.arrived
    ensures r.paused == (s.paused != c.TogglePause?)
    // Entries already in the store are kept as they were; only Demolish
    // removes any, and every new entry is a fresh unit or a fresh tower.
    ensures forall id :: id in s.world && id in r.world ==> r.world[id] == s.world[id]
    ensures !c.Demolish? ==> s.world.Keys <= r.world.Keys
    ensures c.Idle? || c.TogglePause? ==> r.world == s.world
    ensures forall id :: id in r.world && id !in s.world ==>
      || (c.SpawnWave? && FreshUnit(r.world[id], Start()))
      || (c.Build? && id == c.id && FreshTower(r.world[id], c.at))
  {
    match c
    case Idle => s
    case TogglePause => s.(paused := !s.paused)
    case SpawnWave(rolls, ids) =>
      var w := BatchSpawnUnits(s.world, Start(), rolls, ids);
      assert forall id :: id in w && id !in s.world ==> exists i :: 0 <= i < |ids| && ids[i] == id;
      s.(world := w)
    case Build(at, stats, id) => s.(world := SpawnTower(s.world, at, stats, id))
    case Demolish(click) => s.(world := RemoveTower(s.world, click, order))
  }

  /** Commands never make a score negative: kept entries keep their scores,
      and new ones carry no Score or Score 0. */
  lemma DispatchKeepsScoresNonNegative(s: Sim, c: Command, order: seq<EntityId>)
    requires Covers(order, s.world) && Admissible(s, c) && ScoresNonNegative(s.world)
    ensures ScoresNonNegative(Dispatch(s, c, order).world)
  {
  }

  /** One iteration of the main loop: the command, then the step. The store's
      iteration order is `before` for the command and `after` for the step. */
  datatype Frame = Frame(command: Command, before: seq<EntityId>, after: seq<EntityId>)

  /** Each frame's command is admissible and each order covers its store. */
  predicate Playable(s: Sim, frames: seq<Frame>)
    decreases |frames|
  {
    || frames == []
    || (var f := frames[0];
        && Covers(f.before, s.world) && Admissible(s, f.command)
        && Covers(f.after, Dispatch(s, f.command, f.before).world)
        && Playable(Step(Dispatch(s, f.command, f.before), f.after), frames[1..]))
  }

  /** The main loop over a run of frames. */
  function Run(s: Sim, frames: seq<Frame>): (r: Sim)
    requires Playable(s, frames)
    ensures s.step <= r.step <= s.step + |frames|
    ensures s.arrived <= r.arrived
    decreases |frames|
  {
    if frames == [] then s
    else
      var f := frames[0];
      Run(Step(Dispatch(s, f.command, f.before), f.after), frames[1..])
  }

  /** No score ever goes negative over any run of the loop, so the score
      reported at exit is the exact sum of the kills. */
  lemma {:induction false} RunKeepsScoresNonNegative(s: Sim, frames: seq<Frame>)
    requires Playable(s, frames) && ScoresNonNegative(s.world)
    ensures ScoresNonNegative(Run(s, frames).world)
    decreases |frames|
  {
    if frames != [] {
      var f := frames[0];
      var d := Dispatch(s, f.command, f.before);
      DispatchKeepsScoresNonNegative(s, f.command, f.before);
      StepKeepsScoresNonNegative(d, f.after);
      RunKeepsScoresNonNegative(Step(d, f.after), frames[1..]);
    }
  }

  /** The score reported at exit, after any run of the loop from a state
      with no negative score (the initial one is such a state, by
      InitScoresNonNegative), is the exact sum of the towers' kills: it never
      wraps, as long as the i32 sum itself does not overflow. */
  lemma ExitScoreExact(s: Sim, frames: seq<Frame>, order: seq<EntityId>)
    requires Playable(s, frames) && ScoresNonNegative(s.world)
    requires Covers(order, Run(s, frames).world)
    requires ScoreSum(Run(s, frames).world, order) < 0x8000_0000
    ensures 0 <= ScoreSum(Run(s, frames).world, order)
    ensures TotalScore(Run(s, frames).world, order) == ScoreSum(Run(s, frames).world, order)
  {
    RunKeepsScoresNonNegative(s, frames);
    ReportedScoreExact(Run(s, frames).world, order);
  }
}

=== FILE: spawns.dfy ===
/** Spawning units and towers, and the nearest-tower helpers behind the remove
    and inspect commands. Random draws and freshly allocated handles are
    parameters; the draw bounds are those of the random ranges. */
module Spawns {
  import opened Components
  import opened Geometry
  import opened Store
  import opened Selection

  /** The random draws for one unit. */
  datatype UnitRoll = UnitRoll(dx: int, dy: int, speed: int, health: int)

  /** gen_range(-1000..1000) twice, gen_range(1..5), gen_range(30..200). */
  predicate ValidUnitRoll(roll: UnitRoll) {
    && -1000 <= roll.dx < 1000 && -1000 <= roll.dy < 1000
    && 1 <= roll.speed < 5
    && 30 <= roll.health < 200
  }

  /** The random draws for a tower's combat statistics. */
  datatype TowerStats = TowerStats(damage: int, range: int)

  /** gen_range(3..5) and gen_range(300..500). */
  predicate ValidTowerStats(stats: TowerStats) {
    3 <= stats.damage < 5 && 300 <= stats.range < 500
  }

  /** The random draws for a tower of a batch: a position and its statistics. */
  datatype TowerRoll = TowerRoll(x: int, y: int, stats: TowerStats)

  /** gen_range(-100..100) on each axis. */
  predicate ValidTowerRoll(roll: TowerRoll) {
    -100 <= roll.x < 100 && -100 <= roll.y < 100 && ValidTowerStats(roll.stats)
  }

  /** A freshly spawned unit near `at`: a full-health unit at the first waypoint index. */
  predicate FreshUnit(e: Entity, at: Position) {
    && IsUnit(e)
    && e.damage.None? && e.range.None? && e.score.None? && e.target.None?
    && e.health.value.value == e.health.value.max
    && 30 <= e.health.value.value < 200
    && 1 <= e.speed.value.perStep < 5
    && at.x - 1000 <= e.position.value.x < at.x + 1000
    && at.y - 1000 <= e.position.value.y < at.y + 1000
    && e.waypoint == Some(Waypoint(0))
  }

  /** A freshly built tower at `p`: no kills, not engaging, stats in bounds. */
  predicate FreshTower(e: Entity, p: Position) {
    && IsTower(e)
    && e.health.None? && e.speed.None? && e.waypoint.None?
    && e.position == Some(p)
    && e.score == Some(Score(0))
    && e.target == Some(Target(None))
    && 3 <= e.damage.value.amount < 5
    && 300 <= e.range.value.reach < 500
  }

  function NewUnit(at: Position, roll: UnitRoll): (e: Entity)
    ensures IsUnit(e) && !IsTower(e)
    ensures e.health.value.value == e.health.value.max && e.waypoint == Some(Waypoint(0))
    ensures ValidUnitRoll(roll) ==> FreshUnit(e, at)
  {
    Entity(
      position := Some(Position(at.x + roll.dx, at.y + roll.dy)),
      health := Some(Health(roll.health, roll.health)),
      speed := Some(Speed(roll.speed)),
      waypoint := Some(Waypoint(0)),
      damage := None, range := None, score := None, target := None)
  }

  function NewTower(p: Position, stats: TowerStats): (e: Entity)
    ensures IsTower(e) && !IsUnit(e)
    ensures e.score == Some(Score(0)) && e.target == Some(Target(None)) && e.position == Some(p)
    ensures ValidTowerStats(stats) ==> FreshTower(e, p)
  {
    Entity(
      position := Some(p), health := None, speed := None, waypoint := None,
      damage := Some(Damage(stats.damage)), range := Some(Range(stats.range)),
      score := Some(Score(0)), target := Some(Target(None)))
  }

  /** batch_spawn_units: one new unit per draw, everything already there untouched. */
  function BatchSpawnUnits(w: World, at: Position, rolls: seq<UnitRoll>, ids: seq<EntityId>): (r: World)
    requires |ids| == |rolls| && NoDup(ids)
    requires forall id :: id in ids ==> id !in w
    requires forall i :: 0 <= i < |rolls| ==> ValidUnitRoll(rolls[i])
    ensures |r| == |w| + |rolls|
    ensures forall id :: id in r <==> id in w || id in ids
    ensures forall id :: id in w ==> r[id] == w[id]
    ensures forall i :: 0 <= i < |ids| ==> FreshUnit(r[ids[i]], at)
  {
    Insert(w, ids, seq(|rolls|, i requires 0 <= i < |rolls| => NewUnit(at, rolls[i])))
  }

  /** The towers a batch of draws describes, each at its drawn position. */
  function NewTowers(rolls: seq<TowerRoll>): (ts: seq<Entity>)
    ensures |ts| == |rolls|
    ensures forall i :: 0 <= i < |rolls| && ValidTowerRoll(rolls[i]) ==> FreshTower(ts[i], Position(rolls[i].x, rolls[i].y))
  {
    seq(|rolls|, i requires 0 <= i < |rolls| => NewTower(Position(rolls[i].x, rolls[i].y), rolls[i].stats))
  }

  /** batch_spawn_towers: one new tower per draw, each at its drawn position
      (so within [-100, 100) on each axis). */
  function BatchSpawnTowers(w: World, rolls: seq<TowerRoll>, ids: seq<EntityId>): (r: World)
    requires |ids| == |rolls| && NoDup(ids)
    requires forall id :: id in ids ==> id !in w
    requires forall i :: 0 <= i < |rolls| ==> ValidTowerRoll(rolls[i])
    ensures |r| == |w| + |rolls|
    ensures forall id :: id in r <==> id in w || id in ids
    ensures forall id :: id in w ==> r[id] == w[id]
    ensures forall i :: 0 <= i < |ids| ==> FreshTower(r[ids[i]], Position(rolls[i].x, rolls[i].y))
  {
    Insert(w, ids, NewTowers(rolls))
  }

  /** spawn_tower: one new tower where the player clicked. */
  function SpawnTower(w: World, at: Position, stats: TowerStats, id: EntityId): (r: World)
    requires id !in w
    requires ValidTowerStats(stats)
    ensures |r| == |w| + 1
    ensures r.Keys == w.Keys + {id}
    ensures forall other :: other in w ==> r[other] == w[other]
    ensures FreshTower(r[id], at)
  {
    w[id := NewTower(at, stats)]
  }

  /** Near enough to a click for remove_tower: carries Damage and Position,
      at Manhattan distance below 10. */
  predicate Removable(w: World, click: Position, id: EntityId) {
    id in w && w[id].damage.Some? && w[id].position.Some?
    && ManhattanDistance(w[id].position.value, click) < 10
  }

  /** Near enough to a click for closest_tower: also carries Range. */
  predicate Inspectable(w: World, click: Position, id: EntityId) {
    Removable(w, click, id) && w[id].range.Some?
  }

  function ClickDistance(w: World, click: Position, id: EntityId): int {
    if id in w && w[id].position.Some? then ManhattanDistance(w[id].position.value, click) else 0
  }

  /** remove_tower: despawns one nearest Damage-carrying entity at Manhattan
      distance below 10 from the click, or nothing when none is that close. */
  function RemoveTower(w: World, click: Position, order: seq<EntityId>): (r: World)
    requires Covers(order, w)
    ensures r.Keys <= w.Keys && |w| - 1 <= |r| <= |w|
    ensures forall id :: id in r ==> r[id] == w[id]
    ensures (forall id :: !Removable(w, click, id)) ==> r == w
    ensures (exists id :: Removable(w, click, id)) ==>
      exists id :: Removable(w, click, id) && r == w - {id}
        && (forall other :: other in w && Removable(w, click, other) ==> ClickDistance(w, click, id) <= ClickDistance(w, click, other))
  {
    match MinByKey(order, (id: EntityId) => Removable(w, click, id), (id: EntityId) => ClickDistance(w, click, id))
    case None => w
    case Some(id) => w - {id}
  }

  /** closest_tower: position and range of one nearest tower at Manhattan
      distance below 10 from the click, read without changing the store. */
  function ClosestTower(w: World, click: Position, order: seq<EntityId>): (r: Option<(Position, int)>)
    requires Covers(order, w)
    ensures r.None? <==> forall id :: !Inspectable(w, click, id)
    ensures r.Some? ==>
      exists id :: Inspectable(w, click, id) && r.value == (w[id].position.value, w[id].range.value.reach)
        && (forall other :: other in w && Inspectable(w, click, other) ==> ClickDistance(w, click, id) <= ClickDistance(w, click, other))
  {
    match MinByKey(order, (id: EntityId) => Inspectable(w, click, id), (id: EntityId) => ClickDistance(w, click, id))
    case None => None
    case Some(id) => Some((w[id].position.value, w[id].range.value.reach))
  }
}

=== FILE: store.dfy ===
/** The entity store: a finite map from handles to entities, visited in an
    iteration order that the store chooses and the systems must not rely on. */
module Store {
  import opened Components

  type World = map<EntityId, Entity>

  predicate NoDup<T(==)>(s: seq<T>) {
    forall i, j :: 0 <= i < j < |s| ==> s[i] != s[j]
  }

  /** `order` is a possible iteration order of `w`: every live handle occurs
      exactly once. Handles that are no longer live are skipped by the systems. */
  predicate Covers(order: seq<EntityId>, w: World) {
    NoDup(order) && forall id :: id in w ==> id in order
  }

  /** The live handles of `ids` whose entity satisfies `p`, in iteration order:
      the "query, then collect into a removal list" idiom. */
  function Select(w: World, ids: seq<EntityId>, p: Entity -> bool): (r: seq<EntityId>)
    ensures forall id :: id in r <==> id in ids && id in w && p(w[id])
    ensures NoDup(ids) ==> NoDup(r)
    ensures |r| <= |ids|
    decreases |ids|
  {
    if ids == [] then []
    else
      var rest := Select(w, ids[1..], p);
      assert forall id :: id in ids <==> id == ids[0] || id in ids[1..];
      if ids[0] in w && p(w[ids[0]]) then [ids[0]] + rest else rest
  }

  /** Despawning a list of handles that all came from the live set. */
  function Despawn(w: World, ids: seq<EntityId>): (r: World)
    ensures r.Keys == w.Keys - Elems(ids)
    ensures forall id :: id in r ==> r[id] == w[id]
  {
    map id | id in w && id !in ids :: w[id]
  }

  /** The handles listed in `s`. */
  function Elems<T>(s: seq<T>): set<T> {
    set x | x in s
  }

  /** The live handles whose entity satisfies `p`. */
  function Matching(w: World, p: Entity -> bool): set<EntityId> {
    set id | id in w && p(w[id])
  }

  /** Spawning a batch: entries under fresh, distinct handles. */
  function Insert<V>(m: map<EntityId, V>, ids: seq<EntityId>, vs: seq<V>): (r: map<EntityId, V>)
    requires |ids| == |vs| && NoDup(ids)
    requires forall id :: id in ids ==> id !in m
    ensures |r| == |m| + |ids|
    ensures forall id :: id in r <==> id in m || id in ids
    ensures forall id :: id in m ==> r[id] == m[id]
    ensures forall i :: 0 <= i < |ids| ==> r[ids[i]] == vs[i]
    decreases |ids|
  {
    if ids == [] then m
    else
      var head := ids[0];
      var tail := ids[1..];
      assert forall x :: x in ids <==> x == head || x in tail;
      assert forall j :: 0 <= j < |tail| ==> tail[j] == ids[j + 1];
      var m' := m[head := vs[0]];
      assert |m'| == |m| + 1;
      assert forall id :: id in tail ==> id !in m';
      Insert(m', tail, vs[1..])
  }

  /** A list without repetitions has as many elements as the set it lists. */
  lemma {:induction false} DistinctCount<T>(s: seq<T>)
    requires NoDup(s)
    ensures |Elems(s)| == |s|
    decreases |s|
  {
    if s != [] {
      DistinctCount(s[1..]);
      var tail := Elems(s[1..]);
      assert Elems(s) == {s[0]} + tail;
      assert s[0] !in tail;
    }
  }

  /** Counting the selected handles counts the matching live entities. */
  lemma SelectCount(w: World, order: seq<EntityId>, p: Entity -> bool)
    requires Covers(order, w)
    ensures |Select(w, order, p)| == |Matching(w, p)|
  {
    var r := Select(w, order, p);
    DistinctCount(r);
    assert Elems(r) == Matching(w, p);
  }

  /** Taking one element out of a list without repetitions leaves a list
      without repetitions of exactly the other elements. */
  lemma RemoveAtElems<T>(s: seq<T>, k: nat)
    requires NoDup(s) && k < |s|
    ensures NoDup(s[..k] + s[k + 1..])
    ensures forall x :: x in s[..k] + s[k + 1..] <==> x in s && x != s[k]
  {
    var t := s[..k] + s[k + 1..];
    assert forall i :: 0 <= i < |t| ==> t[i] == s[if i < k then i else i + 1];
    forall x | x in s && x != s[k]
      ensures x in t
    {
      var m :| 0 <= m < |s| && s[m] == x;
      if m < k { assert t[m] == x; } else { assert t[m - 1] == x; }
    }
  }
}
